=== FILE: README.md ===
# Simple Search Engine — a Dafny model of its result orchestration

The system is a small news search engine in two parts:

- A React page, `search-engine/src/Search.jsx`, that sends queries to a back end, pages through the results, and orders each batch by TF-IDF score, sentiment score or sentiment label, in either direction.
- A Flask service, `app.py`. It fetches headlines from News API, ranks them against the query by TF-IDF similarity, and describes each hit: the first 50 words plus a star-rated sentiment label. It keeps the described hits in an article cache keyed by the md5 of title and URL.

The model has six modules:

| module | file | what it models |
|---|---|---|
| `Api` | `api.dfy` | The records exchanged over HTTP: `Article`, `SearchRequest`, `RefreshReply`. |
| `Strings` | `strings.dfy` | Lexicographic string order, the stand-in for `localeCompare` on the sentiment labels. Python's `str.split()` / `' '.join`. |
| `Ordering` | `ordering.dfy` | The policy the page applies to every batch: a stable sort by the selected comparator, then a reversal of the whole batch when the direction is "asc". `Array.prototype.sort` is modelled by a stable insertion sort. Every stable sort gives the same output (`StableSortUnique`), so the model does not depend on which stable algorithm a JavaScript engine uses. |
| `SearchPage` | `search_page.dfy` | The page state and its transitions: `refreshNews`, `handleSearch`, `loadMore`, `loadAll`, `toggleOrderDirection`, the "Order By" select and the query input. Each request–reply exchange is one atomic step, and the back end is a function from request to reply. |
| `App` | `app.dfy` | The pure helpers of the service: the `fetch_news` projection, `refresh`, `preprocess_documents`, `get_first_50_words` and the label mapping of `analyze_sentiment`. |
| `AppSearch` | `app_search.dfy` | The result loop of `search`. It takes the page window of the ranked indices, skips zero-score hits, then reads, refreshes and extends the article cache. On a cache miss for a document without content, the page is scraped and the scraped text is written back into the corpus. |

Scores are `int`s rather than floats. The TF-IDF ranking (`sims` and `ranked`) is an input of `Search`. The md5 digest, the page scraper and the sentiment model are the three functions of a `Services` parameter.

Python appends the cache's own dictionaries to `results`. So when the same key is emitted twice, both positions show the score of its last visit. `AppSearch.Search` states this: each result is the final cache entry of its key.

The model follows the code as written:

- `loadMore` arranges only the new batch and appends it. It does not sort the combined list again (`SearchPage.LoadMoreAppendsUnsorted`).
- Changing the order key or toggling the direction only stores the new setting. The shown results are not re-sorted.
- `loadAll` and `refreshNews` leave the page cursor where it was.
- Ordering by label with direction "desc" gives ascending label order (`SearchPage.LabelDescIsAscending`).
- Arranging twice gives the same result for "desc" (`Ordering.DescIdempotent`). For "asc" it does not: items with equal keys swap places each time (`Ordering.AscNotIdempotent`).

## Model

| member | source | states |
|---|---|---|
| Ordering.StableSortSpec | search-engine/src/Search.jsx:48-58 | The sorted batch is ordered by the selected comparator, is a permutation of the batch, and keeps items with equal keys in their input order. |
| Ordering.StableSortUnique | search-engine/src/Search.jsx:48-58 | Every sequence that meets that stable-sort specification equals the model's sort, so the outcome does not depend on the engine's sort algorithm. |
| Ordering.Arrange | search-engine/src/Search.jsx:47-61 | Each batch is shown as its stable sort for "desc", or the reverse of that sort for "asc". The result is a permutation of the batch with the same length. |
| Ordering.ArrangeUnique | search-engine/src/Search.jsx:47-61 | The sort-then-reverse policy determines a single arrangement for each batch. |
| Ordering.AscIsReverseOfDesc | search-engine/src/Search.jsx:59-61 | For every key, "asc" is exactly the reverse of "desc". Items with equal keys come out in the reverse of their input order. |
| Ordering.ArrangeByField | search-engine/src/Search.jsx:47-61 | In terms of the fields: "desc" is non-increasing in score and in sentiment score and non-decreasing in label; "asc" is the opposite. |
| Ordering.DescIdempotent | search-engine/src/Search.jsx:47-58 | Arranging a "desc" arrangement again changes nothing. |
| Ordering.AscNotIdempotent | search-engine/src/Search.jsx:59-61 | Two items with equal score swap places on every "asc" arrangement, so arranging twice does not give the once-arranged result. |
| Ordering.Trichotomy | search-engine/src/Search.jsx:49-56 | The comparator `Precedes` of each key (descending `score`, descending `sentiment_score`, ascending label) is total: any two items are tied, or one strictly precedes the other. |
| Ordering.PrecedesTransitive | search-engine/src/Search.jsx:49-56 | The comparator `Precedes` of each key is transitive, so the sort sees a consistent order. |
| Ordering.LabelOrder | search-engine/src/Search.jsx:55-57 | The label comparator puts NEGATIVE before NEUTRAL before POSITIVE. |
| Strings.LessTrichotomy | search-engine/src/Search.jsx:56 | The label comparison is total: two labels are equal, or one comes strictly before the other. |
| Strings.LessTransitive | search-engine/src/Search.jsx:56 | The label comparison is transitive, so it is a consistent comparator for the sort. |
| SearchPage.RefreshNews | search-engine/src/Search.jsx:31-37 | Stores the reply's sources and count; query, results, page and ordering are unchanged. |
| SearchPage.HandleSearch | search-engine/src/Search.jsx:39-65 | Requests page 1 of the query, with `include_all` exactly when the query is empty. Replaces the results by the arranged reply and resets the page to 1; nothing else changes. |
| SearchPage.LoadMore | search-engine/src/Search.jsx:67-93 | Requests the next page with `include_all` set. The old results stay as the prefix, the arranged new batch follows, the length is the sum, and the page advances by one. |
| SearchPage.LoadAll | search-engine/src/Search.jsx:95-119 | Requests page 1 with `include_all` set and replaces the results by the arranged reply. The page cursor and everything else are unchanged. |
| SearchPage.ToggleOrderDirection | search-engine/src/Search.jsx:127-129 | Flips the direction; the results and all other fields are unchanged. |
| SearchPage.ToggleTwice | search-engine/src/Search.jsx:127-129 | Toggling twice restores the state. |
| SearchPage.SetOrderBy | search-engine/src/Search.jsx:178-182 | Stores the selected key; the results keep their order. |
| SearchPage.SetQuery | search-engine/src/Search.jsx:138-141 | Stores the typed text and nothing else. |
| SearchPage.RunValid | search-engine/src/Search.jsx:28 | From any state whose page cursor is at least 1, such as the initial page 1, every sequence of actions keeps it at 1 or more. |
| SearchPage.ReachableValid | search-engine/src/Search.jsx:28 | From the initial state (page 1), every sequence of user actions keeps the page cursor at 1 or more. |
| SearchPage.LoadMoreAppendsUnsorted | search-engine/src/Search.jsx:75-90 | Take two pages of one item each, the second with the higher score (such as 5 then 9), ordered by TF-IDF "desc". After `loadMore` the lower score comes first, so the combined list is not in score order. |
| SearchPage.LabelDescIsAscending | search-engine/src/Search.jsx:54-61 | Labels NEUTRAL, POSITIVE, NEGATIVE ordered by label "desc" come out NEGATIVE, NEUTRAL, POSITIVE. |
| Strings.Split | app.py:85 | Every element of `str.split()` is a non-empty word without whitespace. |
| Strings.SplitJoin | app.py:86 | Joining words with single spaces and splitting again gives back the words. |
| App.Project | app.py:32 | Title and URL are copied. The content is the description when it is non-empty, else the content when that is non-empty, else empty. |
| App.FetchNews | app.py:28-32 | A reply without `articles` gives no documents; otherwise one projected document per article, in order. |
| App.Refresh | app.py:157-161 | The reply names the single source "NewsAPI" and counts exactly the documents now in the corpus. |
| App.PreprocessDocuments | app.py:35-43 | For each document, the processed text is its title followed by a space, three times, then its content; the titles list holds each title. |
| App.FirstWordsSpec | app.py:84-86 | Text of at most 50 words is returned unchanged. Longer text becomes exactly its first 50 words joined by single spaces, followed by "...", so the last word carries the "...". Without the "..." they split back into those words. A description never has more than 50 words. |
| App.StarLabel | app.py:76-81 | "1 star"/"2 stars" map to NEGATIVE and "4 stars"/"5 stars" to POSITIVE, each if and only if; everything else maps to NEUTRAL. |
| App.AnalyzeSentiment | app.py:72-82 | The model sees at most the first 512 characters. Its score is passed through and its rating is mapped to one of the three labels. |
| AppSearch.KeyOfTitleUrl | app.py:57-59 | The article key depends on the title and URL only. Documents that agree on both share a key, so writing scraped content back into a document leaves its key unchanged. |
| AppSearch.SliceBound | app.py:124 | Python's slice-bound normalisation stays within the list, and is the identity for an in-range bound. |
| AppSearch.Window | app.py:120-124 | The page window holds at most 10 indices, all taken from the ranking. |
| AppSearch.WindowSpec | app.py:121-124 | For page 1 or more, the window is the ranked indices from `(page-1)*10` to `(page-1)*10+10`, clamped to the list. |
| AppSearch.Kept | app.py:124-126 | An index is emitted if and only if it is in the window and not skipped. Emitted indices are valid document indices and never more than the window. |
| AppSearch.KeptAppend | app.py:124-126 | The filter distributes over concatenation, so emitted indices keep the ranking order. |
| AppSearch.KeptAll | app.py:125 | With an empty query or `include_all`, nothing in the window is skipped. |
| AppSearch.EmittedSpec | app.py:124-126 | With an empty query or `include_all`, the whole window is emitted. Otherwise exactly the windowed indices with a non-zero score are. |
| AppSearch.NewEntry | app.py:135-146 | A new cache entry carries the document's title and URL and the current similarity score. Its description is the first 50 words of the content: the document's own, or the scraped page when it has none. It never has more than 50 words. The sentiment score and label are the model's verdict on that same content, the label being one of three. |
| AppSearch.TurnKeepsInv | app.py:124-153 | One turn of the loop keeps its invariant. A skipped index changes nothing. Any other index is appended to the emitted ones, with corpus, cache, scores and new entries as described for `Search`. |
| AppSearch.Search | app.py:120-153 | Returns one result per emitted index, at most 10. Each result is the final cache entry of its key, and at a key's last visit it carries that index's score. The cache grows by exactly the emitted keys, and old entries change only in their score. A new key holds the entry built at its first visit. A document's content is overwritten exactly when it was emitted at the first visit of a key new to the cache and had no content; it then holds the scraped text, which may be empty. Cache hits and later visits of a key leave documents unchanged. |

## Left out

- Network and file I/O are not modelled: the News API request, the page scraper (`fetch_article_content`), `save_cache` and loading the cache file at start-up. The scraper and the API reply are parameters.
- Flask routing and JSON parsing of the request are not modelled. A `query` of `None` and a non-integer `page` are not modelled; `page` is an integer and the query a string.
- The TF-IDF vectoriser, the cosine similarities and `argsort` are not modelled. Their outputs, the scores `sims` and the ranking `ranked`, are inputs of `AppSearch.Search`.
- Floating-point scores are not modelled. Scores are integers, so NaN and rounding are out of scope.
- The sentiment pipeline and the md5 digest are functions of the `Services` parameter, not models.
- App.FetchNews: an article without one of the keys `title`, `description`, `content` or `url` is not modelled. The source subscripts all four, so such an article raises `KeyError` and aborts `fetch_news`. For `description` and `content`, `None` stands for a JSON `null`; for the `articles` list, it stands for a missing key. A JSON `null` for `articles`, `title` or `url` is not modelled: the model reads a `null` `articles` as a missing key, and `title` and `url` are strings. In the source, a `null` `articles` raises `TypeError` when `fetch_news` iterates it. A `null` title raises `TypeError` at `title + " "` in the next search. A `null` url is keyed by the text `<title>_None`, and scraping it yields empty content.
- App.AnalyzeSentiment: cuts the content at 512 characters. The source comment speaks of tokens, but the code slices characters, and so does the model.
- Ordering.Precedes: `localeCompare` is modelled as lexicographic order of code points. For the three labels the back end produces, the two orders agree.
- SearchPage.SetOrderBy: only the three keys of the select are modelled. An unknown key, which would leave a batch unsorted, cannot be chosen in the page.
- The `loading` and `loadingMore` flags and the disabled buttons are not modelled. Overlapping requests are not modelled either: each action is one atomic step.
- JSX rendering and `handleKeyPress` are not modelled. Enter triggers the same step as `SearchPage.HandleSearch`.
- The `VERBOSE` debug prints are not modelled.

=== FILE: api.dfy ===
/** The request/response records exchanged between the search page and the
    Flask service. Scores are abstract ordered values (`int`) rather than
    floating-point numbers. */
module Api {

  /** An optional JSON value. Each use says whether `None` stands for a
      missing key or for a JSON `null`. */
  datatype Option<T> = None | Some(value: T)

  /** One search hit as returned by `POST /search` and kept in the
      back end's article cache: `title`, `description`, `url`, `score`,
      `sentiment_score`, `sentiment`. */
  datatype Article = Article(
    title: string,
    description: string,
    url: string,
    score: int,
    sentimentScore: int,
    sentiment: string)

  /** The body of `POST /search`: `{query, page, include_all}`. */
  datatype SearchRequest = SearchRequest(query: string, page: int, includeAll: bool)

  /** The fields of the `GET /refresh` reply the page reads:
      `sources` and `count`. */
  datatype RefreshReply = RefreshReply(sources: seq<string>, count: int)
}

=== FILE: app.dfy ===
/** The pure helpers of the Flask back end (app.py): the projection of
    News API articles, title weighting, description truncation, the
    star-rating label mapping and the `/refresh` reply. The HTTP calls and
    the sentiment model are parameters. */
module App {
  import opened Api
  import opened Strings

  /** A document of the back end's corpus: `{title, content, url}`. */
  datatype Doc = Doc(title: string, content: string, url: string)

  /** An article of the News API reply; `None` stands for a JSON `null`
      `description` or `content`. Every article carries all four keys. */
  datatype RawArticle = RawArticle(
    title: string,
    description: Option<string>,
    content: Option<string>,
    url: string)

  /** Python truthiness of an optional string: present and non-empty. */
  predicate Truthy(v: Option<string>) {
    v.Some? && v.value != ""
  }

  /** One element of the list built by `fetch_news`:
      `description or content or ''`. */
  function Project(a: RawArticle): (d: Doc)
    ensures d.title == a.title && d.url == a.url
    ensures Truthy(a.description) ==> d.content == a.description.value
    ensures !Truthy(a.description) && Truthy(a.content) ==> d.content == a.content.value
    ensures d.content == "" <==> !Truthy(a.description) && !Truthy(a.content)
  {
    var content :=
      if Truthy(a.description) then a.description.value
      else if Truthy(a.content) then a.content.value
      else "";
    Doc(a.title, content, a.url)
  }

  /** `fetch_news` after the HTTP call: the `articles` list of the reply,
      each projected. `None` means the reply has no `articles` key, which
      yields the empty list. */
  function FetchNews(articles: Option<seq<RawArticle>>): (docs: seq<Doc>)
    ensures articles.None? ==> docs == []
    ensures articles.Some? ==> |docs| == |articles.value|
    ensures articles.Some? ==>
      forall i :: 0 <= i < |docs| ==> docs[i] == Project(articles.value[i])
  {
    match articles
    case None => []
    case Some(list) => seq(|list|, i requires 0 <= i < |list| => Project(list[i]))
  }

  /** `refresh`: reloads the corpus and reports the single source and the
      number of documents now held. */
  function Refresh(articles: Option<seq<RawArticle>>): (r: (seq<Doc>, RefreshReply))
    ensures r.1.sources == ["NewsAPI"]
    ensures r.1.count == |r.0|
    ensures articles.Some? ==> r.1.count == |articles.value|
    ensures articles.None? ==> r.1.count == 0
  {
    var docs := FetchNews(articles);
    (docs, RefreshReply(["NewsAPI"], |docs|))
  }

  /** How many times a title is repeated in front of the content. */
  const TitleWeight := 3

  /** `preprocess_documents`: for each document, its title and a space
      repeated three times followed by its content, and separately its
      title. */
  method PreprocessDocuments(docs: seq<Doc>) returns (processed: seq<string>, titles: seq<string>)
    ensures |processed| == |docs| && |titles| == |docs|
    ensures forall i :: 0 <= i < |docs| ==>
      var t := docs[i].title;
      processed[i] == t + " " + t + " " + t + " " + docs[i].content
    ensures forall i :: 0 <= i < |docs| ==> titles[i] == docs[i].title
  {
    processed, titles := [], [];
    var n := 0;
    while n < |docs|
      invariant 0 <= n <= |docs|
      invariant |processed| == n && |titles| == n
      invariant forall i :: 0 <= i < n ==>
        var t := docs[i].title;
        processed[i] == t + " " + t + " " + t + " " + docs[i].content
      invariant forall i :: 0 <= i < n ==> titles[i] == docs[i].title
    {
      var title := docs[n].title;
      var content := Repeat(title + " ", TitleWeight) + docs[n].content;
      RepeatThree(title + " ");
      processed := processed + [content];
      titles := titles + [title];
      n := n + 1;
    }
  }

  /** How many words of the content a description keeps. */
  const DescriptionWords := 50

  /** `get_first_50_words`: the text itself when it has at most 50
      whitespace-separated words; otherwise its first 50 words joined by
      single spaces, followed by "...". */
  function FirstWords(text: string): (r: string)
  {
    var words := Split(text);
    if |words| > DescriptionWords then Join(" ", words[..DescriptionWords]) + "..." else text
  }

  /** A description never has more than 50 words; a long text is cut to
      exactly its first 50 words (the last one carrying "..."), and
      removing the "..." gives back those words. */
  lemma {:induction false} FirstWordsSpec(text: string)
    ensures |Split(text)| <= DescriptionWords ==> FirstWords(text) == text
    ensures |Split(text)| > DescriptionWords ==>
      FirstWords(text) == Join(" ", Split(text)[..DescriptionWords]) + "..."
    ensures |Split(FirstWords(text))| <= DescriptionWords
    ensures |Split(text)| > DescriptionWords ==>
      var r := FirstWords(text);
      var words := Split(text);
      && |r| >= 3 && r[|r| - 3..] == "..."
      && Split(r[..|r| - 3]) == words[..DescriptionWords]
      && Split(r) == words[..DescriptionWords - 1] + [words[DescriptionWords - 1] + "..."]
  {
    if |Split(text)| > DescriptionWords {
      FirstWordsLong(text);
    }
  }

  /** The long case of `get_first_50_words`. */
  lemma FirstWordsLong(text: string)
    requires |Split(text)| > DescriptionWords
    ensures var r := FirstWords(text);
      var words := Split(text);
      && |r| >= 3 && r[|r| - 3..] == "..."
      && Split(r[..|r| - 3]) == words[..DescriptionWords]
      && Split(r) == words[..DescriptionWords - 1] + [words[DescriptionWords - 1] + "..."]
  {
    var words := Split(text);
    var kept := words[..DescriptionWords];
    var joined := Join(" ", kept);
    var r := joined + "...";
    assert FirstWords(text) == r;
    assert r[..|r| - 3] == joined && r[|r| - 3..] == "...";
    SplitJoin(kept);
    assert "..."[1..] == ".." && ".."[1..] == "." && "."[1..] == "";
    assert NoSpace("...");
    SplitJoinTail(kept, "...");
    assert kept[..DescriptionWords - 1] == words[..DescriptionWords - 1];
    assert kept[DescriptionWords - 1] == words[DescriptionWords - 1];
  }

  /** The labels `analyze_sentiment` reports. */
  predicate IsLabel(s: string) {
    s == "NEGATIVE" || s == "NEUTRAL" || s == "POSITIVE"
  }

  /** The star-rating mapping inside `analyze_sentiment`: one or two stars
      are NEGATIVE, four or five stars POSITIVE, anything else NEUTRAL. */
  function StarLabel(stars: string): (mapped: string)
    ensures IsLabel(mapped)
    ensures mapped == "NEGATIVE" <==> stars == "1 star" || stars == "2 stars"
    ensures mapped == "POSITIVE" <==> stars == "4 stars" || stars == "5 stars"
    ensures mapped == "NEUTRAL" <==>
      stars != "1 star" && stars != "2 stars" && stars != "4 stars" && stars != "5 stars"
  {
    if stars in ["1 star", "2 stars"] then "NEGATIVE"
    else if stars in ["4 stars", "5 stars"] then "POSITIVE"
    else "NEUTRAL"
  }

  /** How much of the content is handed to the sentiment model. */
  const SentimentPrefix := 512

  /** `analyze_sentiment`: asks the model about the first 512 characters
      of the content and maps its star rating to a label. The model is the
      parameter `model`, returning `(score, stars)`. */
  function AnalyzeSentiment(content: string, model: string -> (int, string)): (r: (int, string))
    ensures var prefix := if |content| <= SentimentPrefix then content else content[..SentimentPrefix];
      r.0 == model(prefix).0 && r.1 == StarLabel(model(prefix).1)
    ensures IsLabel(r.1)
  {
    var prefix := if |content| <= SentimentPrefix then content else content[..SentimentPrefix];
    var out := model(prefix);
    (out.0, StarLabel(out.1))
  }
}

=== FILE: app_search.dfy ===
/** The result loop of the `/search` handler (app.py): the page window over
    the ranked document indices, the zero-score filter, and the article
    cache that is read, refreshed and extended for every emitted document.
    The TF-IDF ranking is an input: `sims` are the similarity scores and
    `ranked` the document indices best first. The md5 digest, the page
    scraper and the sentiment model are the parameter `svc`. */
module AppSearch {
  import opened Api
  import opened App
  import opened Strings

  /** The outside services `search` calls: the md5 digest of
      `generate_article_key`, the page scraper `fetch_article_content` and
      the sentiment model. */
  datatype Services = Services(md5: string -> string, scrape: string -> string, model: string -> (int, string))

  /** Results per page. */
  const PageSize := 10

  /** Python's normalisation of a slice bound `i` for a sequence of length
      `n`: negative bounds count from the end, then clamp to `[0, n]`. */
  function SliceBound(i: int, n: nat): (b: nat)
    ensures b <= n
    ensures 0 <= i <= n ==> b == i
    ensures i > n ==> b == n
  {
    if i < 0 then (if i + n < 0 then 0 else i + n)
    else if i > n then n
    else i
  }

  /** Python's `s[i:j]`. */
  function PySlice<T>(s: seq<T>, i: int, j: int): (r: seq<T>)
    ensures |r| <= |s|
  {
    var lo, hi := SliceBound(i, |s|), SliceBound(j, |s|);
    if lo < hi then s[lo..hi] else []
  }

  /** `ranked_indices[start_index:end_index]` for the requested page. */
  function Window(ranked: seq<int>, page: int): (w: seq<int>)
    ensures |w| <= PageSize
    ensures forall x :: x in w ==> x in ranked
  {
    var start := (page - 1) * PageSize;
    PySlice(ranked, start, start + PageSize)
  }

  function Min(a: int, b: int): (m: int) {
    if a <= b then a else b
  }

  /** For a page of 1 or more the window is the ranked indices from
      `(page-1)*10` to `(page-1)*10+10`, clamped to the list; for any page
      it holds at most 10 indices, all taken from the ranking. */
  lemma WindowSpec(ranked: seq<int>, page: int)
    ensures page >= 1 ==>
      var start := (page - 1) * PageSize;
      Window(ranked, page)
        == ranked[Min(start, |ranked|)..Min(start + PageSize, |ranked|)]
  {
  }

  /** The `continue` of the loop: an index is skipped exactly when there
      is a query, `include_all` is off and its score is zero. */
  predicate Skipped(query: string, includeAll: bool, sim: int) {
    query != "" && !includeAll && sim == 0
  }

  predicate IndicesIn(s: seq<int>, n: nat) {
    forall i :: 0 <= i < |s| ==> 0 <= s[i] < n
  }

  /** The indices of `window` that are not skipped, in window order. */
  function Kept(window: seq<int>, sims: seq<int>, query: string, includeAll: bool): (e: seq<int>)
    requires IndicesIn(window, |sims|)
    ensures |e| <= |window|
    ensures IndicesIn(e, |sims|)
    ensures forall x :: x in e <==> x in window && !Skipped(query, includeAll, sims[x])
  {
    if |window| == 0 then []
    else
      var rest := Kept(window[1..], sims, query, includeAll);
      assert forall x :: x in window <==> x == window[0] || x in window[1..];
      if Skipped(query, includeAll, sims[window[0]]) then rest else [window[0]] + rest
  }

  lemma IndicesAppend(w1: seq<int>, w2: seq<int>, n: nat)
    requires IndicesIn(w1, n) && IndicesIn(w2, n)
    ensures IndicesIn(w1 + w2, n)
  {
    assert forall i :: 0 <= i < |w1 + w2| ==> (w1 + w2)[i] == if i < |w1| then w1[i] else w2[i - |w1|];
  }

  /** Filtering distributes over concatenation, so the emitted indices keep
      the ranking order. */
  lemma {:induction false} KeptAppend(w1: seq<int>, w2: seq<int>, sims: seq<int>, query: string, includeAll: bool)
    requires IndicesIn(w1, |sims|) && IndicesIn(w2, |sims|)
    ensures IndicesIn(w1 + w2, |sims|)
    ensures Kept(w1 + w2, sims, query, includeAll)
         == Kept(w1, sims, query, includeAll) + Kept(w2, sims, query, includeAll)
    decreases |w1|
  {
    IndicesAppend(w1, w2, |sims|);
    if |w1| > 0 {
      var w := w1 + w2;
      assert w[0] == w1[0] && w[1..] == w1[1..] + w2;
      KeptAppend(w1[1..], w2, sims, query, includeAll);
      var k1 := Kept(w1[1..], sims, query, includeAll);
      var k2 := Kept(w2, sims, query, includeAll);
      if !Skipped(query, includeAll, sims[w1[0]]) {
        assert [w1[0]] + (k1 + k2) == ([w1[0]] + k1) + k2;
      }
    } else {
      assert w1 + w2 == w2;
    }
  }

  /** With an empty query or `include_all`, nothing is skipped. */
  lemma {:induction false} KeptAll(window: seq<int>, sims: seq<int>, query: string, includeAll: bool)
    requires IndicesIn(window, |sims|)
    requires query == "" || includeAll
    ensures Kept(window, sims, query, includeAll) == window
    decreases |window|
  {
    if |window| > 0 {
      KeptAll(window[1..], sims, query, includeAll);
      assert window == [window[0]] + window[1..];
    }
  }

  /** `generate_article_key`: the digest of `"{title}_{url}"`. */
  function ArticleKey(md5: string -> string, doc: Doc): (key: string) {
    md5(doc.title + "_" + doc.url)
  }

  /** The key depends on the title and URL only: documents that agree on
      both share a key, so writing scraped content back into a document
      leaves its key unchanged. */
  lemma KeyOfTitleUrl(md5: string -> string, d1: Doc, d2: Doc)
    ensures d1.title == d2.title && d1.url == d2.url ==> ArticleKey(md5, d1) == ArticleKey(md5, d2)
    ensures ArticleKey(md5, d1.(content := d2.content)) == ArticleKey(md5, d1)
  {
  }

  /** The content used for a cache miss: the document's own, or the
      scraped page when it has none. */
  function MissContent(doc: Doc, scrape: string -> string): (content: string) {
    if doc.content == "" then scrape(doc.url) else doc.content
  }

  /** The cache entry built on a miss. */
  function NewEntry(doc: Doc, sim: int, svc: Services): (a: Article)
    ensures a.title == doc.title && a.url == doc.url && a.score == sim
    ensures a.description == FirstWords(MissContent(doc, svc.scrape))
    ensures |Split(a.description)| <= DescriptionWords
    ensures (a.sentimentScore, a.sentiment) == AnalyzeSentiment(MissContent(doc, svc.scrape), svc.model)
    ensures IsLabel(a.sentiment)
  {
    var content := MissContent(doc, svc.scrape);
    FirstWordsSpec(content);
    var sentiment := AnalyzeSentiment(content, svc.model);
    Article(doc.title, FirstWords(content), doc.url, sim, sentiment.0, sentiment.1)
  }

  /** Position `i` is the last of `keys` carrying its key. */
  predicate LastOfKey(keys: seq<string>, i: int)
    requires 0 <= i < |keys|
  {
    forall j :: i < j < |keys| ==> keys[j] != keys[i]
  }

  /** Position `i` is the first of `keys` carrying its key. */
  predicate FirstOfKey(keys: seq<string>, i: int)
    requires 0 <= i < |keys|
  {
    forall j :: 0 <= j < i ==> keys[j] != keys[i]
  }

  function KeysOf(md5: string -> string, documents: seq<Doc>, e: seq<int>): (keys: seq<string>)
    requires IndicesIn(e, |documents|)
    ensures |keys| == |e|
    ensures forall i :: 0 <= i < |e| ==> keys[i] == ArticleKey(md5, documents[e[i]])
  {
    seq(|e|, i requires 0 <= i < |e| => ArticleKey(md5, documents[e[i]]))
  }

  /** The indices the loop emits for this request. */
  function Emitted(ranked: seq<int>, page: int, sims: seq<int>, query: string, includeAll: bool): (e: seq<int>)
    requires IndicesIn(ranked, |sims|)
  {
    Kept(Window(ranked, page), sims, query, includeAll)
  }

  /** A document of the corpus after the loop: unchanged, or, when it had
      no content, given the scraped page as content. */
  predicate SameOrScraped(before: Doc, after: Doc, scrape: string -> string) {
    after == before || (before.content == "" && after == before.(content := scrape(before.url)))
  }

  /** The values the loop of `search` updates: the keys of the
      dictionaries appended to `results` so far, the article cache and the
      corpus. */
  datatype Loop = Loop(keys: seq<string>, cache: map<string, Article>, docs: seq<Doc>)

  /** One emitted index: on a cache hit the stored entry is kept and only
      its score is refreshed; on a miss the page is scraped when the
      document has no content (and the corpus keeps the scraped content),
      then a new entry is described, scored and stored. */
  function Visit(st: Loop, idx: int, sims: seq<int>, svc: Services): (next: Loop)
    requires 0 <= idx < |st.docs| && |sims| == |st.docs|
  {
    var doc := st.docs[idx];
    var key := ArticleKey(svc.md5, doc);
    if key in st.cache then
      Loop(st.keys + [key], st.cache[key := st.cache[key].(score := sims[idx])], st.docs)
    else
      Loop(st.keys + [key], st.cache[key := NewEntry(doc, sims[idx], svc)],
           if doc.content == "" then st.docs[idx := doc.(content := svc.scrape(doc.url))] else st.docs)
  }

  /** The corpus after visiting `emitted`: only visited documents may have
      been given scraped content. */
  ghost predicate DocsKept(documents: seq<Doc>, docs: seq<Doc>, emitted: seq<int>, scrape: string -> string) {
    && |docs| == |documents|
    && (forall d :: 0 <= d < |documents| ==> SameOrScraped(documents[d], docs[d], scrape))
    && (forall d :: 0 <= d < |documents| && d !in emitted ==> docs[d] == documents[d])
  }

  /** The cache after appending `keys`: extended by exactly those keys,
      untouched elsewhere, and old entries changed in their score only. */
  ghost predicate CacheKept(cache0: map<string, Article>, cache: map<string, Article>, keys: seq<string>) {
    && (forall k :: k in cache <==> k in cache0 || k in keys)
    && (forall k :: k in cache0 && k !in keys ==> k in cache && cache[k] == cache0[k])
    && (forall k :: k in cache0 ==> k in cache && cache[k] == cache0[k].(score := cache[k].score))
  }

  /** The last visit of each key set its score. */
  ghost predicate ScoresCurrent(cache: map<string, Article>, keys: seq<string>, emitted: seq<int>, sims: seq<int>)
    requires |keys| == |emitted| && IndicesIn(emitted, |sims|)
  {
    forall i :: 0 <= i < |keys| && LastOfKey(keys, i) ==>
      keys[i] in cache && cache[keys[i]].score == sims[emitted[i]]
  }

  /** A key new to the cache holds the entry built at its first visit. */
  ghost predicate FreshEntries(cache0: map<string, Article>, cache: map<string, Article>,
                               keys: seq<string>, emitted: seq<int>,
                               documents: seq<Doc>, sims: seq<int>, svc: Services)
    requires |keys| == |emitted| && IndicesIn(emitted, |documents|) && |sims| == |documents|
  {
    forall i :: 0 <= i < |keys| && keys[i] !in cache0 && FirstOfKey(keys, i) ==>
      keys[i] in cache &&
      cache[keys[i]] == NewEntry(documents[emitted[i]], sims[emitted[i]], svc)
                          .(score := cache[keys[i]].score)
  }

  /** A key new to the cache whose document had no content got the
      scraped page written back into the corpus at its first visit. */
  ghost predicate DocsScraped(cache0: map<string, Article>, docs: seq<Doc>, keys: seq<string>,
                              emitted: seq<int>, documents: seq<Doc>, scrape: string -> string)
    requires |keys| == |emitted| && IndicesIn(emitted, |documents|) && |docs| == |documents|
  {
    forall i :: 0 <= i < |keys| && keys[i] !in cache0 && FirstOfKey(keys, i)
                && documents[emitted[i]].content == "" ==>
      docs[emitted[i]] == documents[emitted[i]].(content := scrape(documents[emitted[i]].url))
  }

  /** Only a first visit of a key new to the cache, for a document without
      content, changes the corpus. */
  ghost predicate OnlyScraped(cache0: map<string, Article>, docs: seq<Doc>, keys: seq<string>,
                              emitted: seq<int>, documents: seq<Doc>)
    requires |keys| == |emitted| && |docs| == |documents|
  {
    forall d :: 0 <= d < |documents| && docs[d] != documents[d] ==>
      exists i :: 0 <= i < |keys| && emitted[i] == d && keys[i] !in cache0 && FirstOfKey(keys, i)
                  && documents[d].content == ""
  }

  ghost predicate LoopInv(documents: seq<Doc>, sims: seq<int>, cache0: map<string, Article>, svc: Services,
                          emitted: seq<int>, st: Loop)
    requires |sims| == |documents|
  {
    && IndicesIn(emitted, |documents|)
    && st.keys == KeysOf(svc.md5, documents, emitted)
    && DocsKept(documents, st.docs, emitted, svc.scrape)
    && CacheKept(cache0, st.cache, st.keys)
    && ScoresCurrent(st.cache, st.keys, emitted, sims)
    && FreshEntries(cache0, st.cache, st.keys, emitted, documents, sims, svc)
    && DocsScraped(cache0, st.docs, st.keys, emitted, documents, svc.scrape)
    && OnlyScraped(cache0, st.docs, st.keys, emitted, documents)
  }

  /** A key not yet in the cache was not visited, so its document is still
      the original one. */
  lemma UnvisitedDoc(documents: seq<Doc>, svc: Services,
                     emitted: seq<int>, st: Loop, idx: int)
    requires 0 <= idx < |documents|
    requires IndicesIn(emitted, |documents|)
    requires st.keys == KeysOf(svc.md5, documents, emitted)
    requires DocsKept(documents, st.docs, emitted, svc.scrape)
    requires forall k :: k in st.keys ==> k in st.cache
    ensures ArticleKey(svc.md5, st.docs[idx]) == ArticleKey(svc.md5, documents[idx])
    ensures ArticleKey(svc.md5, st.docs[idx]) !in st.cache ==> st.docs[idx] == documents[idx]
  {
    assert SameOrScraped(documents[idx], st.docs[idx], svc.scrape);
    var key := ArticleKey(svc.md5, documents[idx]);
    if idx in emitted {
      var j :| 0 <= j < |emitted| && emitted[j] == idx;
      assert st.keys[j] == key;
    }
  }

  lemma VisitDocs(documents: seq<Doc>, sims: seq<int>, svc: Services,
                  emitted: seq<int>, st: Loop, idx: int)
    requires |sims| == |documents| && 0 <= idx < |documents|
    requires IndicesIn(emitted, |documents|)
    requires st.keys == KeysOf(svc.md5, documents, emitted)
    requires DocsKept(documents, st.docs, emitted, svc.scrape)
    requires forall k :: k in st.keys ==> k in st.cache
    ensures DocsKept(documents, Visit(st, idx, sims, svc).docs, emitted + [idx], svc.scrape)
  {
    UnvisitedDoc(documents, svc, emitted, st, idx);
    var doc := st.docs[idx];
    var key := ArticleKey(svc.md5, doc);
    var docs' := Visit(st, idx, sims, svc).docs;
    if key !in st.cache && doc.content == "" {
      assert docs' == st.docs[idx := doc.(content := svc.scrape(doc.url))];
    } else {
      assert docs' == st.docs;
    }
  }

  lemma VisitScraped(documents: seq<Doc>, sims: seq<int>, cache0: map<string, Article>, svc: Services,
                     emitted: seq<int>, st: Loop, idx: int)
    requires |sims| == |documents| && 0 <= idx < |documents|
    requires IndicesIn(emitted, |documents|)
    requires st.keys == KeysOf(svc.md5, documents, emitted)
    requires DocsKept(documents, st.docs, emitted, svc.scrape)
    requires CacheKept(cache0, st.cache, st.keys)
    requires DocsScraped(cache0, st.docs, st.keys, emitted, documents, svc.scrape)
    ensures var next := Visit(st, idx, sims, svc);
      |next.keys| == |emitted + [idx]| && IndicesIn(emitted + [idx], |documents|) && |next.docs| == |documents|
      && DocsScraped(cache0, next.docs, next.keys, emitted + [idx], documents, svc.scrape)
  {
    assert forall k :: k in st.keys ==> k in st.cache;
    UnvisitedDoc(documents, svc, emitted, st, idx);
    var next := Visit(st, idx, sims, svc);
    var key := ArticleKey(svc.md5, st.docs[idx]);
    var e' := emitted + [idx];
    assert next.keys == st.keys + [key];
    assert key in st.cache ==> next.docs == st.docs;
    forall i | 0 <= i < |next.keys| && next.keys[i] !in cache0 && FirstOfKey(next.keys, i)
               && documents[e'[i]].content == ""
      ensures next.docs[e'[i]] == documents[e'[i]].(content := svc.scrape(documents[e'[i]].url))
    {
      if i < |st.keys| {
        assert next.keys[i] == st.keys[i] && e'[i] == emitted[i];
        assert FirstOfKey(st.keys, i) by {
          forall j | 0 <= j < i
            ensures st.keys[j] != st.keys[i]
          {
            assert next.keys[j] == st.keys[j];
          }
        }
        if emitted[i] == idx {
          assert key == st.keys[i];
        }
      } else {
        assert forall j :: 0 <= j < |st.keys| ==> st.keys[j] == next.keys[j];
        assert key !in st.keys;
        assert key !in st.cache;
      }
    }
  }

  lemma VisitOnlyScraped(documents: seq<Doc>, sims: seq<int>, cache0: map<string, Article>, svc: Services,
                         emitted: seq<int>, st: Loop, idx: int)
    requires |sims| == |documents| && 0 <= idx < |documents|
    requires IndicesIn(emitted, |documents|)
    requires st.keys == KeysOf(svc.md5, documents, emitted)
    requires DocsKept(documents, st.docs, emitted, svc.scrape)
    requires CacheKept(cache0, st.cache, st.keys)
    requires OnlyScraped(cache0, st.docs, st.keys, emitted, documents)
    ensures var next := Visit(st, idx, sims, svc);
      |next.keys| == |emitted + [idx]| && |next.docs| == |documents|
      && OnlyScraped(cache0, next.docs, next.keys, emitted + [idx], documents)
  {
    assert forall k :: k in st.keys ==> k in st.cache;
    UnvisitedDoc(documents, svc, emitted, st, idx);
    var next := Visit(st, idx, sims, svc);
    var doc := st.docs[idx];
    var key := ArticleKey(svc.md5, doc);
    var e' := emitted + [idx];
    assert next.keys == st.keys + [key];
    assert key in st.cache || doc.content != "" ==> next.docs == st.docs;
    assert key !in st.cache && doc.content == "" ==> next.docs == st.docs[idx := doc.(content := svc.scrape(doc.url))];
    forall d | 0 <= d < |documents| && next.docs[d] != documents[d]
      ensures exists i :: 0 <= i < |next.keys| && e'[i] == d && next.keys[i] !in cache0
                          && FirstOfKey(next.keys, i) && documents[d].content == ""
    {
      if next.docs[d] == st.docs[d] {
        var i :| 0 <= i < |st.keys| && emitted[i] == d && st.keys[i] !in cache0 && FirstOfKey(st.keys, i)
                 && documents[d].content == "";
        assert next.keys[i] == st.keys[i] && e'[i] == d;
        assert FirstOfKey(next.keys, i) by {
          forall j | 0 <= j < i
            ensures next.keys[j] != next.keys[i]
          {
            assert next.keys[j] == st.keys[j];
          }
        }
      } else {
        var i := |st.keys|;
        assert d == idx && key !in st.cache && doc == documents[idx];
        assert e'[i] == idx && next.keys[i] == key;
        assert FirstOfKey(next.keys, i) by {
          forall j | 0 <= j < i
            ensures next.keys[j] != key
          {
            assert next.keys[j] == st.keys[j];
          }
        }
      }
    }
  }

  lemma VisitCache(cache0: map<string, Article>, sims: seq<int>, svc: Services,
                   st: Loop, idx: int)
    requires 0 <= idx < |st.docs| && |sims| == |st.docs|
    requires CacheKept(cache0, st.cache, st.keys)
    ensures var next := Visit(st, idx, sims, svc);
      CacheKept(cache0, next.cache, next.keys)
  {
    var next := Visit(st, idx, sims, svc);
    var key := ArticleKey(svc.md5, st.docs[idx]);
    assert next.keys == st.keys + [key];
    if key in st.cache {
      assert next.cache == st.cache[key := st.cache[key].(score := sims[idx])];
    } else {
      assert next.cache == st.cache[key := NewEntry(st.docs[idx], sims[idx], svc)];
      assert key !in cache0;
    }
  }

  lemma VisitScores(sims: seq<int>, svc: Services,
                    emitted: seq<int>, st: Loop, idx: int)
    requires 0 <= idx < |st.docs| && |sims| == |st.docs|
    requires |st.keys| == |emitted| && IndicesIn(emitted, |sims|)
    requires ScoresCurrent(st.cache, st.keys, emitted, sims)
    ensures var next := Visit(st, idx, sims, svc);
      |next.keys| == |emitted + [idx]| && IndicesIn(emitted + [idx], |sims|)
      && ScoresCurrent(next.cache, next.keys, emitted + [idx], sims)
  {
    var next := Visit(st, idx, sims, svc);
    var key := ArticleKey(svc.md5, st.docs[idx]);
    assert next.keys == st.keys + [key];
    assert key in next.cache && next.cache[key].score == sims[idx];
    assert forall k :: k != key && k in st.cache ==> k in next.cache && next.cache[k] == st.cache[k];
    ScoresAppend(sims, st.keys, st.cache, next.cache, emitted, key, idx);
  }

  /** Appending `key` whose entry now carries the score of `idx`, with
      every other entry unchanged, keeps the last score of every key
      current. */
  lemma ScoresAppend(sims: seq<int>, keys: seq<string>, cache: map<string, Article>, cache': map<string, Article>,
                     emitted: seq<int>, key: string, idx: int)
    requires 0 <= idx < |sims| && |keys| == |emitted| && IndicesIn(emitted, |sims|)
    requires ScoresCurrent(cache, keys, emitted, sims)
    requires key in cache' && cache'[key].score == sims[idx]
    requires forall k :: k != key && k in cache ==> k in cache' && cache'[k] == cache[k]
    ensures |keys + [key]| == |emitted + [idx]| && IndicesIn(emitted + [idx], |sims|)
    ensures ScoresCurrent(cache', keys + [key], emitted + [idx], sims)
  {
    var keys', e' := keys + [key], emitted + [idx];
    forall i | 0 <= i < |keys'| && LastOfKey(keys', i)
      ensures keys'[i] in cache' && cache'[keys'[i]].score == sims[e'[i]]
    {
      if i < |keys| {
        assert keys'[i] != key by {
          assert keys'[|keys|] == key;
        }
        forall j | i < j < |keys|
          ensures keys[j] != keys[i]
        {
          assert keys'[j] == keys[j] && keys'[i] == keys[i];
        }
        assert LastOfKey(keys, i);
      }
    }
  }

  lemma VisitFresh(documents: seq<Doc>, sims: seq<int>, cache0: map<string, Article>, svc: Services,
                   emitted: seq<int>, st: Loop, idx: int)
    requires |sims| == |documents| && 0 <= idx < |documents|
    requires IndicesIn(emitted, |documents|)
    requires st.keys == KeysOf(svc.md5, documents, emitted)
    requires DocsKept(documents, st.docs, emitted, svc.scrape)
    requires CacheKept(cache0, st.cache, st.keys)
    requires FreshEntries(cache0, st.cache, st.keys, emitted, documents, sims, svc)
    ensures var next := Visit(st, idx, sims, svc);
      |next.keys| == |emitted + [idx]| && IndicesIn(emitted + [idx], |documents|)
      && FreshEntries(cache0, next.cache, next.keys, emitted + [idx], documents, sims, svc)
  {
    var next := Visit(st, idx, sims, svc);
    var key := ArticleKey(svc.md5, st.docs[idx]);
    var e' := emitted + [idx];
    UnvisitedDoc(documents, svc, emitted, st, idx);
    assert next.keys == st.keys + [key];
    var entry := NewEntry(documents[idx], sims[idx], svc);
    assert key !in st.cache ==> next.cache == st.cache[key := entry];
    assert key in st.cache ==> next.cache == st.cache[key := st.cache[key].(score := sims[idx])];
    forall i | 0 <= i < |next.keys| && next.keys[i] !in cache0 && FirstOfKey(next.keys, i)
      ensures next.keys[i] in next.cache
      ensures next.cache[next.keys[i]]
           == NewEntry(documents[e'[i]], sims[e'[i]], svc).(score := next.cache[next.keys[i]].score)
    {
      if i < |st.keys| {
        FreshOld(documents, sims, cache0, svc, emitted, st.keys, st.cache, next.cache, key, sims[idx], entry, i);
      } else {
        assert forall j :: 0 <= j < |st.keys| ==> st.keys[j] == next.keys[j];
        assert key !in st.keys;
        assert key !in st.cache;
        assert next.cache[key] == entry;
        assert entry.score == sims[idx];
      }
    }
  }

  /** An earlier first visit keeps its entry when another visit only
      touches the score of the visited key. */
  lemma FreshOld(documents: seq<Doc>, sims: seq<int>, cache0: map<string, Article>, svc: Services,
                 emitted: seq<int>, keys: seq<string>, cache: map<string, Article>,
                 cache': map<string, Article>, key: string, score: int, entry: Article, i: int)
    requires |sims| == |documents| && IndicesIn(emitted, |documents|) && |keys| == |emitted|
    requires FreshEntries(cache0, cache, keys, emitted, documents, sims, svc)
    requires forall k :: k in keys ==> k in cache
    requires key in cache ==> cache' == cache[key := cache[key].(score := score)]
    requires key !in cache ==> cache' == cache[key := entry]
    requires 0 <= i < |keys| && keys[i] !in cache0
    requires FirstOfKey(keys + [key], i)
    ensures keys[i] in cache'
    ensures cache'[keys[i]]
         == NewEntry(documents[emitted[i]], sims[emitted[i]], svc).(score := cache'[keys[i]].score)
  {
    assert FirstOfKey(keys, i) by {
      forall j | 0 <= j < i
        ensures keys[j] != keys[i]
      {
        assert (keys + [key])[j] == keys[j] && (keys + [key])[i] == keys[i];
      }
    }
    assert keys[i] in cache;
  }

  lemma VisitKeepsInv(documents: seq<Doc>, sims: seq<int>, cache0: map<string, Article>, svc: Services,
                      emitted: seq<int>, st: Loop, idx: int)
    requires |sims| == |documents| && 0 <= idx < |documents|
    requires LoopInv(documents, sims, cache0, svc, emitted, st)
    ensures LoopInv(documents, sims, cache0, svc, emitted + [idx],
                    Visit(st, idx, sims, svc))
  {
    assert forall k :: k in st.keys ==> k in st.cache;
    VisitDocs(documents, sims, svc, emitted, st, idx);
    VisitCache(cache0, sims, svc, st, idx);
    VisitScores(sims, svc, emitted, st, idx);
    VisitFresh(documents, sims, cache0, svc, emitted, st, idx);
    VisitScraped(documents, sims, cache0, svc, emitted, st, idx);
    VisitOnlyScraped(documents, sims, cache0, svc, emitted, st, idx);
    var next := Visit(st, idx, sims, svc);
    assert next.keys == KeysOf(svc.md5, documents, emitted + [idx]);
  }

  lemma LoopInvInit(documents: seq<Doc>, sims: seq<int>, cache0: map<string, Article>, svc: Services)
    requires |sims| == |documents|
    ensures LoopInv(documents, sims, cache0, svc, [], Loop([], cache0, documents))
  {
    assert KeysOf(svc.md5, documents, []) == [];
  }

  /** One more index of the window either is skipped or joins the
      emitted indices at the end. */
  lemma KeptStep(window: seq<int>, n: int, sims: seq<int>, query: string, includeAll: bool)
    requires IndicesIn(window, |sims|) && 0 <= n < |window|
    ensures IndicesIn(window[..n], |sims|) && IndicesIn(window[..n + 1], |sims|)
    ensures Kept(window[..n + 1], sims, query, includeAll)
         == Kept(window[..n], sims, query, includeAll)
            + (if Skipped(query, includeAll, sims[window[n]]) then [] else [window[n]])
  {
    var idx := window[n];
    assert window[..n + 1] == window[..n] + [idx];
    assert IndicesIn(window[..n], |sims|) && IndicesIn([idx], |sims|);
    KeptAppend(window[..n], [idx], sims, query, includeAll);
    assert [idx][1..] == [];
  }

  /** The entries of `cache` under `keys`, in order. */
  function Reply(keys: seq<string>, cache: map<string, Article>): (results: seq<Article>)
    requires forall k :: k in keys ==> k in cache
    ensures |results| == |keys|
    ensures forall i :: 0 <= i < |keys| ==> results[i] == cache[keys[i]]
  {
    seq(|keys|, i requires 0 <= i < |keys| => cache[keys[i]])
  }

  /** The loop has gone through the first `n` indices of the window. */
  ghost predicate Progress(documents: seq<Doc>, sims: seq<int>, cache0: map<string, Article>, svc: Services,
                           query: string, includeAll: bool, window: seq<int>, n: int,
                           emitted: seq<int>, st: Loop)
  {
    && |sims| == |documents| && IndicesIn(window, |sims|) && 0 <= n <= |window|
    && emitted == Kept(window[..n], sims, query, includeAll)
    && LoopInv(documents, sims, cache0, svc, emitted, st)
  }

  /** One turn of the loop: a skipped index changes nothing, any other
      is visited. */
  function Turn(st: Loop, idx: int, sims: seq<int>, query: string, includeAll: bool, svc: Services): (next: Loop)
    requires 0 <= idx < |st.docs| && |sims| == |st.docs|
  {
    if Skipped(query, includeAll, sims[idx]) then st else Visit(st, idx, sims, svc)
  }

  /** A turn of the loop over the next index of the window keeps the loop
      invariant, with that index emitted unless it is skipped. */
  lemma TurnKeepsInv(documents: seq<Doc>, sims: seq<int>, cache0: map<string, Article>, svc: Services,
                     query: string, includeAll: bool, window: seq<int>, n: int,
                     emitted: seq<int>, st: Loop)
    requires Progress(documents, sims, cache0, svc, query, includeAll, window, n, emitted, st)
    requires n < |window|
    ensures 0 <= window[n] < |st.docs| == |sims|
    ensures var idx := window[n];
      Progress(documents, sims, cache0, svc, query, includeAll, window, n + 1,
               After(emitted, idx, sims, query, includeAll),
               Turn(st, idx, sims, query, includeAll, svc))
  {
    var idx := window[n];
    KeptStep(window, n, sims, query, includeAll);
    if !Skipped(query, includeAll, sims[idx]) {
      VisitKeepsInv(documents, sims, cache0, svc, emitted, st, idx);
    }
  }

  /** The loop of `search` over `window`, one turn per index in order. */
  function Run(st: Loop, window: seq<int>, sims: seq<int>, query: string, includeAll: bool,
               svc: Services): (r: Loop)
    requires IndicesIn(window, |sims|) && |sims| == |st.docs|
    ensures |r.docs| == |st.docs|
    decreases |window|
  {
    if |window| == 0 then st
    else Run(Turn(st, window[0], sims, query, includeAll, svc), window[1..],
             sims, query, includeAll, svc)
  }

  /** The index sequence a turn leaves behind: `emitted`, followed by
      `idx` unless it is skipped. */
  function After(emitted: seq<int>, idx: int, sims: seq<int>, query: string, includeAll: bool): (e: seq<int>)
    requires 0 <= idx < |sims|
  {
    if Skipped(query, includeAll, sims[idx]) then emitted else emitted + [idx]
  }

  /** Induction over the loop: any property of (position, emitted
      indices, state) that every turn preserves holds when the window is
      done. */
  lemma {:induction false} RunInv(window: seq<int>, n: int, sims: seq<int>, query: string, includeAll: bool,
                                  svc: Services,
                                  emitted: seq<int>, st: Loop, inv: (int, seq<int>, Loop) -> bool)
    requires IndicesIn(window, |sims|) && 0 <= n <= |window| && |st.docs| == |sims|
    requires inv(n, emitted, st)
    requires forall m: int, e: seq<int>, s: Loop | 0 <= m < |window| && |s.docs| == |sims| && inv(m, e, s) ::
      inv(m + 1, After(e, window[m], sims, query, includeAll),
          Turn(s, window[m], sims, query, includeAll, svc))
    ensures IndicesIn(window[n..], |sims|)
    ensures inv(|window|, emitted + Kept(window[n..], sims, query, includeAll),
                Run(st, window[n..], sims, query, includeAll, svc))
    decreases |window| - n
  {
    if n == |window| {
      assert window[n..] == [];
      assert emitted + [] == emitted;
    } else {
      var idx := window[n];
      var st' := Turn(st, idx, sims, query, includeAll, svc);
      RunInv(window, n + 1, sims, query, includeAll, svc,
             After(emitted, idx, sims, query, includeAll), st', inv);
      KeptFrom(window, n, sims, query, includeAll, emitted);
      var rest := window[n..];
      assert rest[0] == idx && rest[1..] == window[n + 1..];
      assert Run(st, rest, sims, query, includeAll, svc)
          == Run(st', window[n + 1..], sims, query, includeAll, svc);
    }
  }

  /** Emitting from position `n` on: the index at `n` unless it is
      skipped, then the rest. */
  lemma KeptFrom(window: seq<int>, n: int, sims: seq<int>, query: string, includeAll: bool, emitted: seq<int>)
    requires IndicesIn(window, |sims|) && 0 <= n < |window|
    ensures IndicesIn(window[n..], |sims|) && IndicesIn(window[n + 1..], |sims|)
    ensures emitted + Kept(window[n..], sims, query, includeAll)
         == After(emitted, window[n], sims, query, includeAll) + Kept(window[n + 1..], sims, query, includeAll)
  {
    var idx := window[n];
    var rest := window[n..];
    assert rest[0] == idx && rest[1..] == window[n + 1..];
    assert IndicesIn(rest, |sims|) by {
      forall i | 0 <= i < |rest|
        ensures 0 <= rest[i] < |sims|
      {
        assert rest[i] == window[n + i];
      }
    }
    var later := Kept(window[n + 1..], sims, query, includeAll);
    if !Skipped(query, includeAll, sims[idx]) {
      assert Kept(rest, sims, query, includeAll) == [idx] + later;
      ConcatAssoc(emitted, [idx], later);
    }
  }

  lemma ConcatAssoc<T>(a: seq<T>, b: seq<T>, c: seq<T>)
    ensures a + (b + c) == (a + b) + c
  {
  }

  /** The loop starts with nothing emitted and the cache and corpus as
      they were. */
  lemma ProgressInit(documents: seq<Doc>, sims: seq<int>, ranked: seq<int>, page: int, cache0: map<string, Article>,
                     svc: Services,
                     query: string, includeAll: bool)
    requires |sims| == |documents| && IndicesIn(ranked, |documents|)
    ensures Progress(documents, sims, cache0, svc, query, includeAll,
                     Window(ranked, page), 0, [], Loop([], cache0, documents))
  {
    var window := Window(ranked, page);
    LoopInvInit(documents, sims, cache0, svc);
    assert window[..0] == [];
    forall i | 0 <= i < |window|
      ensures 0 <= window[i] < |sims|
    {
      assert window[i] in ranked;
    }
  }

  /** When the loop has run over the whole window, its state is the one
      `Search` promises. */
  lemma SearchDone(
    query: string, page: int, includeAll: bool,
    documents: seq<Doc>, sims: seq<int>, ranked: seq<int>,
    cache: map<string, Article>, svc: Services,
    emitted: seq<int>, st: Loop)
    requires |sims| == |documents|
    requires IndicesIn(ranked, |documents|)
    requires Progress(documents, sims, cache, svc, query, includeAll,
                      Window(ranked, page), |Window(ranked, page)|, emitted, st)
    ensures emitted == Emitted(ranked, page, sims, query, includeAll)
    ensures forall k :: k in st.keys ==> k in st.cache
    ensures var keys := KeysOf(svc.md5, documents, emitted);
      && |keys| == |emitted| <= PageSize
      && st.keys == keys
      && CacheKept(cache, st.cache, keys)
      && ScoresCurrent(st.cache, keys, emitted, sims)
      && FreshEntries(cache, st.cache, keys, emitted, documents, sims, svc)
      && DocsKept(documents, st.docs, emitted, svc.scrape)
      && DocsScraped(cache, st.docs, keys, emitted, documents, svc.scrape)
      && OnlyScraped(cache, st.docs, keys, emitted, documents)
  {
    var window := Window(ranked, page);
    assert window[..|window|] == window;
  }

  /** Every turn of the loop keeps the loop invariant. */
  lemma EveryTurn(documents: seq<Doc>, sims: seq<int>, cache0: map<string, Article>, svc: Services,
                  query: string, includeAll: bool, window: seq<int>)
    ensures forall m: int, e: seq<int>, s: Loop |
      0 <= m < |window| && |s.docs| == |sims|
      && Progress(documents, sims, cache0, svc, query, includeAll, window, m, e, s) ::
      Progress(documents, sims, cache0, svc, query, includeAll, window, m + 1,
               After(e, window[m], sims, query, includeAll),
               Turn(s, window[m], sims, query, includeAll, svc))
  {
    forall m: int, e: seq<int>, s: Loop |
      0 <= m < |window| && |s.docs| == |sims|
      && Progress(documents, sims, cache0, svc, query, includeAll, window, m, e, s)
      ensures Progress(documents, sims, cache0, svc, query, includeAll, window, m + 1,
                       After(e, window[m], sims, query, includeAll),
                       Turn(s, window[m], sims, query, includeAll, svc))
    {
      TurnKeepsInv(documents, sims, cache0, svc, query, includeAll, window, m, e, s);
    }
  }

  /** The loop run over the whole window has emitted exactly the kept
      indices of the window and keeps the loop invariant. */
  lemma RunReaches(
    query: string, page: int, includeAll: bool,
    documents: seq<Doc>, sims: seq<int>, ranked: seq<int>,
    cache: map<string, Article>, svc: Services)
    requires |sims| == |documents|
    requires IndicesIn(ranked, |documents|)
    ensures IndicesIn(Window(ranked, page), |sims|)
    ensures Progress(documents, sims, cache, svc, query, includeAll,
                     Window(ranked, page), |Window(ranked, page)|,
                     Kept(Window(ranked, page), sims, query, includeAll),
                     Run(Loop([], cache, documents), Window(ranked, page), sims, query, includeAll, svc))
  {
    var window := Window(ranked, page);
    var start := Loop([], cache, documents);
    ProgressInit(documents, sims, ranked, page, cache, svc, query, includeAll);
    var inv := (m: int, e: seq<int>, s: Loop) =>
      Progress(documents, sims, cache, svc, query, includeAll, window, m, e, s);
    EveryTurn(documents, sims, cache, svc, query, includeAll, window);
    RunInv(window, 0, sims, query, includeAll, svc, [], start, inv);
    assert window[0..] == window && [] + Kept(window, sims, query, includeAll) == Kept(window, sims, query, includeAll);
  }

  /** The loop of `search` (the window, the filter and the cache update).
      The reply lists the cache entries of the emitted documents: Python
      appends the cache's own dictionaries, so an entry emitted twice shows
      its last score in both places. A document without content that
      misses the cache gets the scraped page as its content. Returns the
      reply, the cache and the corpus after the call. */
  method Search(
    query: string, page: int, includeAll: bool,
    documents: seq<Doc>, sims: seq<int>, ranked: seq<int>,
    cache: map<string, Article>, svc: Services)
    returns (results: seq<Article>, cache': map<string, Article>, documents': seq<Doc>)
    requires |sims| == |documents|
    requires IndicesIn(ranked, |documents|)
    ensures var e := Emitted(ranked, page, sims, query, includeAll);
      var keys := KeysOf(svc.md5, documents, e);
      && |results| == |e| <= PageSize
      && (forall i :: 0 <= i < |e| ==> keys[i] in cache' && results[i] == cache'[keys[i]])
      && (forall i :: 0 <= i < |e| && LastOfKey(keys, i) ==> results[i].score == sims[e[i]])
      && CacheKept(cache, cache', keys)
      && ScoresCurrent(cache', keys, e, sims)
      && FreshEntries(cache, cache', keys, e, documents, sims, svc)
      && DocsKept(documents, documents', e, svc.scrape)
      && (forall i :: 0 <= i < |e| && keys[i] !in cache && FirstOfKey(keys, i)
                      && documents[e[i]].content == "" ==>
            documents'[e[i]] == documents[e[i]].(content := svc.scrape(documents[e[i]].url)))
      && (forall d :: 0 <= d < |documents| && documents'[d] != documents[d] ==>
            exists i :: 0 <= i < |e| && e[i] == d && keys[i] !in cache && FirstOfKey(keys, i)
                        && documents[d].content == "")
  {
    var window := Window(ranked, page);
    var st := Run(Loop([], cache, documents), window, sims, query, includeAll, svc);
    RunReaches(query, page, includeAll, documents, sims, ranked, cache, svc);
    SearchDone(query, page, includeAll, documents, sims, ranked, cache, svc,
               Kept(window, sims, query, includeAll), st);
    results, cache', documents' := Reply(st.keys, st.cache), st.cache, st.docs;
  }

  /** With an empty query or `include_all` every windowed index is emitted;
      otherwise exactly those with a non-zero score are. */
  lemma EmittedSpec(ranked: seq<int>, page: int, sims: seq<int>, query: string, includeAll: bool)
    requires IndicesIn(ranked, |sims|)
    ensures query == "" || includeAll ==>
      Emitted(ranked, page, sims, query, includeAll) == Window(ranked, page)
    ensures query != "" && !includeAll ==>
      forall x :: x in Emitted(ranked, page, sims, query, includeAll)
        <==> x in Window(ranked, page) && sims[x] != 0
  {
    WindowSpec(ranked, page);
    if query == "" || includeAll {
      KeptAll(Window(ranked, page), sims, query, includeAll);
    }
  }
}

=== FILE: ordering.dfy ===
/** The "sort, then maybe reverse" policy that Search.jsx applies to every
    batch of results (in `handleSearch`, `loadMore` and `loadAll`):
    a stable sort by the comparator of the selected key, followed by a
    reversal of the whole sequence when the direction is "asc". */
module Ordering {
  import opened Api
  import Strings

  /** The values of the "Order By" select: "tfidf", "sentiment_score",
      "sentiment". */
  datatype OrderBy = Tfidf | SentimentScore | SentimentLabel

  /** The values of `orderDirection`: "asc" and "desc". */
  datatype Direction = Asc | Desc

  /** The comparator of the selected key returns a negative number, so a
      stable sort puts `a` strictly before `b`: descending `score`,
      descending `sentiment_score`, ascending `sentiment` label. */
  predicate Precedes(key: OrderBy, a: Article, b: Article) {
    match key
    case Tfidf => b.score - a.score < 0
    case SentimentScore => b.sentimentScore - a.sentimentScore < 0
    case SentimentLabel => Strings.Less(a.sentiment, b.sentiment)
  }

  /** The comparator returns zero: `a` and `b` have the same key. */
  predicate Tied(key: OrderBy, a: Article, b: Article) {
    match key
    case Tfidf => a.score == b.score
    case SentimentScore => a.sentimentScore == b.sentimentScore
    case SentimentLabel => a.sentiment == b.sentiment
  }

  lemma PrecedesIrreflexive(key: OrderBy, a: Article)
    ensures !Precedes(key, a, a)
  {
    if key == SentimentLabel {
      Strings.LessIrreflexive(a.sentiment);
    }
  }

  lemma PrecedesTransitive(key: OrderBy, a: Article, b: Article, c: Article)
    requires Precedes(key, a, b) && Precedes(key, b, c)
    ensures Precedes(key, a, c)
  {
    if key == SentimentLabel {
      Strings.LessTransitive(a.sentiment, b.sentiment, c.sentiment);
    }
  }

  lemma PrecedesAsymmetric(key: OrderBy, a: Article, b: Article)
    requires Precedes(key, a, b)
    ensures !Precedes(key, b, a) && !Tied(key, a, b)
  {
    if key == SentimentLabel {
      Strings.LessAsymmetric(a.sentiment, b.sentiment);
      Strings.LessIrreflexive(a.sentiment);
    }
  }

  /** The comparator is consistent: any two items are ordered one way, the
      other way, or tied. */
  lemma Trichotomy(key: OrderBy, a: Article, b: Article)
    ensures Precedes(key, a, b) || Tied(key, a, b) || Precedes(key, b, a)
  {
    if key == SentimentLabel {
      Strings.LessTrichotomy(a.sentiment, b.sentiment);
    }
  }

  /** The subsequence of `s` whose items are tied with `a`. */
  function TiesOf(key: OrderBy, s: seq<Article>, a: Article): (t: seq<Article>)
    ensures |t| <= |s|
  {
    if |s| == 0 then []
    else (if Tied(key, s[0], a) then [s[0]] else []) + TiesOf(key, s[1..], a)
  }

  /** No later item precedes an earlier one. */
  ghost predicate SortedBy(key: OrderBy, s: seq<Article>) {
    forall i, j :: 0 <= i < j < |s| ==> !Precedes(key, s[j], s[i])
  }

  /** What a stable sort of `input` by the comparator of `key` must return:
      a permutation, in comparator order, with tied items in their input
      order. */
  ghost predicate IsStableSort(key: OrderBy, input: seq<Article>, out: seq<Article>) {
    && multiset(out) == multiset(input)
    && SortedBy(key, out)
    && forall a :: TiesOf(key, out, a) == TiesOf(key, input, a)
  }

  function Reverse<T>(s: seq<T>): (r: seq<T>)
    ensures |r| == |s|
    ensures forall i :: 0 <= i < |s| ==> r[i] == s[|s| - 1 - i]
  {
    if |s| == 0 then [] else Reverse(s[1..]) + [s[0]]
  }

  lemma ReverseReverse<T>(s: seq<T>)
    ensures Reverse(Reverse(s)) == s
  {
  }

  lemma {:induction false} ReverseMultiset<T>(s: seq<T>)
    ensures multiset(Reverse(s)) == multiset(s)
  {
    if |s| > 0 {
      ReverseMultiset(s[1..]);
      assert s == [s[0]] + s[1..];
    }
  }

  lemma {:induction false} TiesOfAppend(key: OrderBy, s: seq<Article>, t: seq<Article>, a: Article)
    ensures TiesOf(key, s + t, a) == TiesOf(key, s, a) + TiesOf(key, t, a)
  {
    if |s| > 0 {
      assert (s + t)[1..] == s[1..] + t;
      TiesOfAppend(key, s[1..], t, a);
    } else {
      assert s + t == t;
    }
  }

  lemma {:induction false} TiesOfReverse(key: OrderBy, s: seq<Article>, a: Article)
    ensures TiesOf(key, Reverse(s), a) == Reverse(TiesOf(key, s, a))
  {
    if |s| > 0 {
      var head := if Tied(key, s[0], a) then [s[0]] else [];
      TiesOfReverse(key, s[1..], a);
      TiesOfAppend(key, Reverse(s[1..]), [s[0]], a);
      assert TiesOf(key, [s[0]], a) == head;
      if Tied(key, s[0], a) {
        assert (head + TiesOf(key, s[1..], a))[1..] == TiesOf(key, s[1..], a);
      } else {
        assert head + TiesOf(key, s[1..], a) == TiesOf(key, s[1..], a);
      }
    }
  }

  /** Insert `x` before the first item of `t` that does not strictly
      precede it: among tied items `x` goes first. */
  function Insert(key: OrderBy, x: Article, t: seq<Article>): (r: seq<Article>)
  {
    if |t| == 0 then [x]
    else if Precedes(key, t[0], x) then [t[0]] + Insert(key, x, t[1..])
    else [x] + t
  }

  /** Insertion adds exactly `x`. */
  lemma {:induction false} InsertMultiset(key: OrderBy, x: Article, t: seq<Article>)
    ensures multiset(Insert(key, x, t)) == multiset(t) + multiset{x}
  {
    if |t| > 0 && Precedes(key, t[0], x) {
      InsertMultiset(key, x, t[1..]);
      assert t == [t[0]] + t[1..];
    }
  }

  lemma {:induction false} InsertSorted(key: OrderBy, x: Article, t: seq<Article>)
    requires SortedBy(key, t)
    ensures SortedBy(key, Insert(key, x, t))
  {
    if |t| == 0 {
    } else if Precedes(key, t[0], x) {
      var rest := Insert(key, x, t[1..]);
      InsertSorted(key, x, t[1..]);
      InsertMultiset(key, x, t[1..]);
      forall j | 0 <= j < |rest|
        ensures !Precedes(key, rest[j], t[0])
      {
        assert rest[j] in multiset(rest);
        if rest[j] == x {
          PrecedesAsymmetric(key, t[0], x);
        } else {
          assert rest[j] in t[1..];
          var k :| 0 <= k < |t[1..]| && t[1..][k] == rest[j];
          assert t[k + 1] == rest[j];
        }
      }
      SortedCons(key, t[0], rest);
    } else {
      forall j | 0 <= j < |t|
        ensures !Precedes(key, t[j], x)
      {
        if Precedes(key, t[j], x) {
          Trichotomy(key, t[0], t[j]);
          if Precedes(key, t[0], t[j]) {
            PrecedesTransitive(key, t[0], t[j], x);
          }
        }
      }
      SortedCons(key, x, t);
    }
  }

  /** An item that no item of a sorted sequence precedes can go in front. */
  lemma SortedCons(key: OrderBy, h: Article, s: seq<Article>)
    requires SortedBy(key, s)
    requires forall j :: 0 <= j < |s| ==> !Precedes(key, s[j], h)
    ensures SortedBy(key, [h] + s)
  {
    var r := [h] + s;
    forall i, j | 0 <= i < j < |r|
      ensures !Precedes(key, r[j], r[i])
    {
      assert r[j] == s[j - 1];
      if i > 0 {
        assert r[i] == s[i - 1];
      }
    }
  }

  lemma TiesOfCons(key: OrderBy, y: Article, s: seq<Article>, a: Article)
    ensures TiesOf(key, [y] + s, a) == (if Tied(key, y, a) then [y] else []) + TiesOf(key, s, a)
  {
    assert ([y] + s)[0] == y && ([y] + s)[1..] == s;
  }

  lemma {:induction false} InsertTies(key: OrderBy, x: Article, t: seq<Article>, a: Article)
    ensures TiesOf(key, Insert(key, x, t), a)
         == (if Tied(key, x, a) then [x] else []) + TiesOf(key, t, a)
  {
    if |t| == 0 || !Precedes(key, t[0], x) {
      assert Insert(key, x, t) == [x] + t;
      TiesOfCons(key, x, t, a);
    } else {
      var mine: seq<Article> := if Tied(key, x, a) then [x] else [];
      var head: seq<Article> := if Tied(key, t[0], a) then [t[0]] else [];
      var rest := Insert(key, x, t[1..]);
      assert Insert(key, x, t) == [t[0]] + rest;
      TiesOfCons(key, t[0], rest, a);
      assert t == [t[0]] + t[1..];
      TiesOfCons(key, t[0], t[1..], a);
      InsertTies(key, x, t[1..], a);
      PrecedesAsymmetric(key, t[0], x);
      SwapEmpty(head, mine, TiesOf(key, t[1..], a));
    }
  }

  /** One of two pieces is empty, so they commute in front of a third. */
  lemma SwapEmpty<T>(h: seq<T>, m: seq<T>, t: seq<T>)
    requires h == [] || m == []
    ensures h + (m + t) == m + (h + t)
  {
    if h == [] {
      assert h + (m + t) == m + t == m + (h + t);
    } else {
      assert h + (m + t) == h + t == m + (h + t);
    }
  }

  /** Stable insertion sort: the sequence a stable `Array.prototype.sort`
      with the comparator of `key` produces. */
  function StableSort(key: OrderBy, s: seq<Article>): (sorted: seq<Article>)
  {
    if |s| == 0 then [] else Insert(key, s[0], StableSort(key, s[1..]))
  }

  /** The insertion sort meets the stable-sort specification. */
  lemma {:induction false} StableSortSpec(key: OrderBy, s: seq<Article>)
    ensures IsStableSort(key, s, StableSort(key, s))
  {
    if |s| > 0 {
      var rest := StableSort(key, s[1..]);
      StableSortSpec(key, s[1..]);
      InsertSorted(key, s[0], rest);
      InsertMultiset(key, s[0], rest);
      assert s == [s[0]] + s[1..];
      forall a
        ensures TiesOf(key, Insert(key, s[0], rest), a) == TiesOf(key, s, a)
      {
        InsertTies(key, s[0], rest, a);
        TiesOfCons(key, s[0], s[1..], a);
      }
    }
  }

  lemma TiesOfContains(key: OrderBy, s: seq<Article>, a: Article, x: Article)
    requires x in TiesOf(key, s, a)
    ensures x in s && Tied(key, x, a)
  {
  }

  lemma {:induction false} InTiesOfSelf(key: OrderBy, s: seq<Article>, x: Article)
    requires x in s
    ensures x in TiesOf(key, s, x)
  {
    if s[0] != x {
      InTiesOfSelf(key, s[1..], x);
    }
  }

  /** A sorted sequence is fixed by the order of each class of tied items:
      two sorted sequences with the same ties are equal. So every stable
      sort (whatever algorithm the engine runs) returns `StableSort`. */
  lemma {:induction false} SortedTiesUnique(key: OrderBy, o1: seq<Article>, o2: seq<Article>)
    requires SortedBy(key, o1) && SortedBy(key, o2)
    requires forall a :: TiesOf(key, o1, a) == TiesOf(key, o2, a)
    ensures o1 == o2
    decreases |o1|
  {
    if |o1| > 0 {
      InTiesOfSelf(key, o1, o1[0]);
      assert TiesOf(key, o2, o1[0]) == TiesOf(key, o1, o1[0]);
    }
    if |o2| > 0 {
      InTiesOfSelf(key, o2, o2[0]);
      assert TiesOf(key, o1, o2[0]) == TiesOf(key, o2, o2[0]);
    }
    if |o1| > 0 {
      var x, y := o1[0], o2[0];
      // each head occurs in the other sequence, so neither precedes the other
      TiesOfContains(key, o2, x, x);
      TiesOfContains(key, o1, y, y);
      SortedNotBeforeHead(key, o2, x);
      SortedNotBeforeHead(key, o1, y);
      Trichotomy(key, x, y);
      assert o1 == [x] + o1[1..] && o2 == [y] + o2[1..];
      TiesOfCons(key, x, o1[1..], x);
      TiesOfCons(key, y, o2[1..], x);
      assert x == y by {
        var t1, t2 := TiesOf(key, o1[1..], x), TiesOf(key, o2[1..], x);
        assert ([x] + t1)[0] == x && ([y] + t2)[0] == y;
      }
      forall a
        ensures TiesOf(key, o1[1..], a) == TiesOf(key, o2[1..], a)
      {
        TiesOfCons(key, x, o1[1..], a);
        TiesOfCons(key, x, o2[1..], a);
        var h: seq<Article> := if Tied(key, x, a) then [x] else [];
        var u1, u2 := TiesOf(key, o1[1..], a), TiesOf(key, o2[1..], a);
        assert h + u1 == h + u2;
        assert (h + u1)[|h|..] == u1 && (h + u2)[|h|..] == u2;
      }
      SortedTiesUnique(key, o1[1..], o2[1..]);
    }
  }

  lemma SortedNotBeforeHead(key: OrderBy, o: seq<Article>, z: Article)
    requires SortedBy(key, o) && z in o
    ensures !Precedes(key, z, o[0])
  {
    var j :| 0 <= j < |o| && o[j] == z;
    if j == 0 {
      PrecedesIrreflexive(key, z);
    }
  }

  /** `StableSort` is the only sequence meeting the stable-sort
      specification. */
  lemma StableSortUnique(key: OrderBy, input: seq<Article>, out: seq<Article>)
    requires IsStableSort(key, input, out)
    ensures out == StableSort(key, input)
  {
    StableSortSpec(key, input);
    SortedTiesUnique(key, out, StableSort(key, input));
  }

  /** What the page shows for a batch: the stable sort for "desc", the
      reverse of the stable sort for "asc". */
  ghost predicate Arranged(key: OrderBy, dir: Direction, batch: seq<Article>, out: seq<Article>) {
    IsStableSort(key, batch, if dir == Desc then out else Reverse(out))
  }

  /** The sort policy of Search.jsx: sort the batch by the selected key
      with a stable sort, then reverse the whole sequence when the
      direction is "asc". */
  function Arrange(key: OrderBy, dir: Direction, batch: seq<Article>): (r: seq<Article>)
    ensures Arranged(key, dir, batch, r)
    ensures multiset(r) == multiset(batch) && |r| == |batch|
  {
    var sorted := StableSort(key, batch);
    StableSortSpec(key, batch);
    if dir == Asc then
      ReverseReverse(sorted);
      ReverseMultiset(sorted);
      Reverse(sorted)
    else sorted
  }

  /** The arrangement of a batch is uniquely determined by the
      specification `Arranged`. */
  lemma ArrangeUnique(key: OrderBy, dir: Direction, batch: seq<Article>, out: seq<Article>)
    requires Arranged(key, dir, batch, out)
    ensures out == Arrange(key, dir, batch)
  {
    if dir == Desc {
      StableSortUnique(key, batch, out);
    } else {
      StableSortUnique(key, batch, Reverse(out));
      ReverseReverse(out);
    }
  }

  /** For every key, the "asc" output is exactly the reverse of the "desc"
      output, including the relative order of tied items. */
  lemma AscIsReverseOfDesc(key: OrderBy, batch: seq<Article>)
    ensures Arrange(key, Asc, batch) == Reverse(Arrange(key, Desc, batch))
    ensures forall a :: TiesOf(key, Arrange(key, Asc, batch), a) == Reverse(TiesOf(key, batch, a))
  {
    forall a
      ensures TiesOf(key, Arrange(key, Asc, batch), a) == Reverse(TiesOf(key, batch, a))
    {
      StableSortSpec(key, batch);
      TiesOfReverse(key, StableSort(key, batch), a);
    }
  }

  /** An arrangement in terms of the fields: for "desc", non-increasing in
      `score` / `sentiment_score` and non-decreasing in the `sentiment`
      label; for "asc", the opposite. */
  predicate FieldOrdered(key: OrderBy, dir: Direction, r: seq<Article>) {
    match key
    case Tfidf =>
      forall i, j :: 0 <= i < j < |r| ==>
        if dir == Desc then r[i].score >= r[j].score else r[i].score <= r[j].score
    case SentimentScore =>
      forall i, j :: 0 <= i < j < |r| ==>
        if dir == Desc then r[i].sentimentScore >= r[j].sentimentScore
        else r[i].sentimentScore <= r[j].sentimentScore
    case SentimentLabel =>
      forall i, j :: 0 <= i < j < |r| ==>
        if dir == Desc then !Strings.Less(r[j].sentiment, r[i].sentiment)
        else !Strings.Less(r[i].sentiment, r[j].sentiment)
  }

  lemma SortedFieldOrdered(key: OrderBy, r: seq<Article>)
    requires SortedBy(key, r)
    ensures FieldOrdered(key, Desc, r)
  {
  }

  lemma ReversedFieldOrdered(key: OrderBy, r: seq<Article>)
    requires SortedBy(key, Reverse(r))
    ensures FieldOrdered(key, Asc, r)
  {
    var s := Reverse(r);
    forall i, j | 0 <= i < j < |r|
      ensures !Precedes(key, r[i], r[j])
    {
      assert r[i] == s[|s| - 1 - i] && r[j] == s[|s| - 1 - j];
    }
  }

  /** The selected field is ordered in the direction the page shows. */
  lemma ArrangeByField(key: OrderBy, dir: Direction, batch: seq<Article>)
    ensures FieldOrdered(key, dir, Arrange(key, dir, batch))
  {
    var r := Arrange(key, dir, batch);
    if dir == Desc {
      SortedFieldOrdered(key, r);
    } else {
      ReversedFieldOrdered(key, r);
    }
  }

  /** The three labels the back end produces, in comparator order:
      NEGATIVE, NEUTRAL, POSITIVE. */
  lemma LabelOrder()
    ensures Strings.Less("NEGATIVE", "NEUTRAL")
    ensures Strings.Less("NEUTRAL", "POSITIVE")
    ensures Strings.Less("NEGATIVE", "POSITIVE")
    ensures !Strings.Less("POSITIVE", "NEUTRAL")
  {
    assert "NEGATIVE"[1..] == "EGATIVE" && "NEUTRAL"[1..] == "EUTRAL";
    assert "EGATIVE"[1..] == "GATIVE" && "EUTRAL"[1..] == "UTRAL";
  }

  /** Sorting an already sorted "desc" arrangement again changes nothing. */
  lemma DescIdempotent(key: OrderBy, batch: seq<Article>)
    ensures Arrange(key, Desc, Arrange(key, Desc, batch)) == Arrange(key, Desc, batch)
  {
    var once := Arrange(key, Desc, batch);
    StableSortSpec(key, batch);
    StableSortUnique(key, once, once);
  }

  /** "asc" is not idempotent: tied items swap on every application,
      because the stable sort keeps them in the reversed order and the
      final reversal turns them back. */
  lemma AscNotIdempotent(a: Article, b: Article)
    requires a.score == b.score && a != b
    ensures Arrange(Tfidf, Asc, [a, b]) == [b, a]
    ensures Arrange(Tfidf, Asc, Arrange(Tfidf, Asc, [a, b])) == [a, b] != [b, a]
  {
    var k := Tfidf;
    var ab, ba := [a, b], [b, a];
    assert ab[1..] == [b] && ba[1..] == [a] && [a][1..] == [] && [b][1..] == [];
    assert StableSort(k, []) == [] && Insert(k, a, []) == [a] && Insert(k, b, []) == [b];
    assert StableSort(k, [b]) == [b] && StableSort(k, [a]) == [a];
    assert StableSort(k, ab) == Insert(k, a, [b]) == ab;
    assert StableSort(k, ba) == Insert(k, b, [a]) == ba;
    assert Reverse(ab) == ba by {
      assert Reverse(ab)[0] == ab[1] && Reverse(ab)[1] == ab[0];
    }
    assert Reverse(ba) == ab by {
      assert Reverse(ba)[0] == ba[1] && Reverse(ba)[1] == ba[0];
    }
    assert ab[0] != ba[0];
  }
}

=== FILE: search_page.dfy ===
/** The state of the Search page (Search.jsx) and its transitions. Each
    action that talks to the back end is one atomic step: the request it
    sends, the reply of the back end (a function `server` of the request),
    and the state it leaves behind. */
module SearchPage {
  import opened Api
  import opened Ordering

  /** The `useState` fields of the page other than the loading flags. */
  datatype State = State(
    query: string,
    results: seq<Article>,
    orderBy: OrderBy,
    orderDirection: Direction,
    page: int,
    connectedApis: seq<string>,
    newsCount: int)

  /** The state the page starts in. */
  const Initial := State("", [], Tfidf, Desc, 1, [], 0)

  /** The request an action sent and the state it left behind. */
  datatype Step = Step(request: SearchRequest, next: State)

  /** The page cursor is always a valid 1-based page number. */
  predicate Valid(st: State) {
    st.page >= 1
  }

  /** `refreshNews`: stores the reply of `GET /refresh`; nothing else
      changes. */
  function RefreshNews(st: State, reply: RefreshReply): (r: State)
    ensures r.connectedApis == reply.sources && r.newsCount == reply.count
    ensures r.query == st.query && r.results == st.results && r.page == st.page
    ensures r.orderBy == st.orderBy && r.orderDirection == st.orderDirection
  {
    st.(connectedApis := reply.sources, newsCount := reply.count)
  }

  /** `handleSearch`: asks for page 1, with `include_all` exactly when the
      query is empty, replaces the results by the arranged reply and resets
      the page cursor to 1. */
  function HandleSearch(st: State, server: SearchRequest -> seq<Article>): (s: Step)
    ensures s.request.query == st.query && s.request.page == 1
    ensures s.request.includeAll <==> st.query == ""
    ensures Arranged(st.orderBy, st.orderDirection, server(s.request), s.next.results)
    ensures s.next.page == 1
    ensures s.next == st.(results := s.next.results, page := 1)
  {
    var request := SearchRequest(st.query, 1, st.query == "");
    var batch := Arrange(st.orderBy, st.orderDirection, server(request));
    Step(request, st.(results := batch, page := 1))
  }

  /** `loadMore`: asks for the next page with `include_all` set, arranges
      only the new batch and appends it after the results already shown
      (the combined list is not arranged again), then advances the cursor
      by one. */
  function LoadMore(st: State, server: SearchRequest -> seq<Article>): (s: Step)
    ensures s.request.query == st.query && s.request.page == st.page + 1
    ensures s.request.includeAll
    ensures |s.next.results| == |st.results| + |server(s.request)|
    ensures s.next.results[..|st.results|] == st.results
    ensures Arranged(st.orderBy, st.orderDirection, server(s.request),
                     s.next.results[|st.results|..])
    ensures s.next.page == st.page + 1
    ensures s.next == st.(results := s.next.results, page := st.page + 1)
  {
    var nextPage := st.page + 1;
    var request := SearchRequest(st.query, nextPage, true);
    var batch := Arrange(st.orderBy, st.orderDirection, server(request));
    assert (st.results + batch)[|st.results|..] == batch;
    Step(request, st.(results := st.results + batch, page := nextPage))
  }

  /** `loadAll`: asks for page 1 with `include_all` set and replaces the
      results by the arranged reply; the page cursor is left as it was. */
  function LoadAll(st: State, server: SearchRequest -> seq<Article>): (s: Step)
    ensures s.request.query == st.query && s.request.page == 1
    ensures s.request.includeAll
    ensures Arranged(st.orderBy, st.orderDirection, server(s.request), s.next.results)
    ensures s.next == st.(results := s.next.results)
  {
    var request := SearchRequest(st.query, 1, true);
    Step(request, st.(results := Arrange(st.orderBy, st.orderDirection, server(request))))
  }

  /** `toggleOrderDirection`: flips between "asc" and "desc" and leaves the
      results in the order they are. */
  function ToggleOrderDirection(st: State): (r: State)
    ensures r.orderDirection != st.orderDirection
    ensures r == st.(orderDirection := r.orderDirection)
  {
    st.(orderDirection := if st.orderDirection == Asc then Desc else Asc)
  }

  /** Toggling twice restores the direction (and the whole state). */
  lemma ToggleTwice(st: State)
    ensures ToggleOrderDirection(ToggleOrderDirection(st)) == st
  {
  }

  /** The "Order By" select: stores the key and leaves the results in the
      order they are. */
  function SetOrderBy(st: State, key: OrderBy): (r: State)
    ensures r.orderBy == key
    ensures r == st.(orderBy := key)
  {
    st.(orderBy := key)
  }

  /** The query input: stores the text; nothing is requested. */
  function SetQuery(st: State, text: string): (r: State)
    ensures r.query == text
    ensures r == st.(query := text)
  {
    st.(query := text)
  }

  /** A user action, with the reply the back end gives to it. */
  datatype Action =
    | Refresh(reply: RefreshReply)
    | Search(server: SearchRequest -> seq<Article>)
    | More(server: SearchRequest -> seq<Article>)
    | All(server: SearchRequest -> seq<Article>)
    | Toggle
    | Order(key: OrderBy)
    | Type(text: string)

  function Apply(st: State, action: Action): (next: State) {
    match action
    case Refresh(reply) => RefreshNews(st, reply)
    case Search(server) => HandleSearch(st, server).next
    case More(server) => LoadMore(st, server).next
    case All(server) => LoadAll(st, server).next
    case Toggle => ToggleOrderDirection(st)
    case Order(key) => SetOrderBy(st, key)
    case Type(text) => SetQuery(st, text)
  }

  function Run(st: State, actions: seq<Action>): (final: State)
    decreases |actions|
  {
    if |actions| == 0 then st else Run(Apply(st, actions[0]), actions[1..])
  }

  /** Every action keeps the page cursor valid. */
  lemma ApplyValid(st: State, action: Action)
    requires Valid(st)
    ensures Valid(Apply(st, action))
  {
  }

  /** From any state with a valid page cursor, any sequence of actions
      leaves the cursor at 1 or more. */
  lemma {:induction false} RunValid(st: State, actions: seq<Action>)
    requires Valid(st)
    ensures Valid(Run(st, actions))
    decreases |actions|
  {
    if |actions| > 0 {
      ApplyValid(st, actions[0]);
      RunValid(Apply(st, actions[0]), actions[1..]);
    }
  }

  /** Whatever the user does after the page loads, the page cursor stays
      at 1 or more. */
  lemma ReachableValid(actions: seq<Action>)
    ensures Run(Initial, actions).page >= 1
  {
    RunValid(Initial, actions);
  }

  /** Two pages of one item each, the second with the higher score (for
      example scores 5 then 9), ordered by TF-IDF "desc": after `loadMore` the
      page shows the first item before the second — the second page is
      arranged on its own and appended, so the whole list is not in score
      order. */
  lemma LoadMoreAppendsUnsorted(st: State, first: Article, second: Article)
    requires st.results == [first] && st.orderBy == Tfidf && st.orderDirection == Desc
    requires first.score < second.score
    ensures var after := LoadMore(st, (req: SearchRequest) => [second]).next;
      after.results == [first, second] && after.page == st.page + 1
      && !FieldOrdered(Tfidf, Desc, after.results)
  {
    var server := (req: SearchRequest) => [second];
    assert [second][1..] == [];
    assert StableSort(Tfidf, [second]) == [second];
    var after := LoadMore(st, server).next;
    assert after.results == [first] + [second] == [first, second];
    assert !(after.results[0].score >= after.results[1].score);
  }

  /** Ordered by label with direction "desc", items labelled NEUTRAL,
      POSITIVE, NEGATIVE come out NEGATIVE, NEUTRAL, POSITIVE: "desc" keeps
      the ascending label comparator and only "asc" reverses it. */
  lemma LabelDescIsAscending(n: Article, p: Article, g: Article)
    requires n.sentiment == "NEUTRAL" && p.sentiment == "POSITIVE" && g.sentiment == "NEGATIVE"
    ensures Arrange(SentimentLabel, Desc, [n, p, g]) == [g, n, p]
  {
    LabelSort(n, p, g);
  }

  lemma LabelSort(n: Article, p: Article, g: Article)
    requires n.sentiment == "NEUTRAL" && p.sentiment == "POSITIVE" && g.sentiment == "NEGATIVE"
    ensures StableSort(SentimentLabel, [n, p, g]) == [g, n, p]
  {
    var k := SentimentLabel;
    LabelOrder();
    assert [g][1..] == [] && [p, g][1..] == [g] && [n, p, g][1..] == [p, g];
    assert StableSort(k, [g]) == [g];
    assert [g, p] == [g] + [p];
    assert StableSort(k, [p, g]) == Insert(k, p, [g]) == [g, p];
    assert Insert(k, n, [p]) == [n, p];
    assert StableSort(k, [n, p, g]) == Insert(k, n, [g, p]) == [g] + [n, p];
  }
}

=== FILE: strings.dfy ===
/** String helpers shared by the front end and the back end: the plain
    lexicographic order used for sentiment labels, and Python's
    whitespace `str.split()` / `' '.join(...)`. */
module Strings {

  /** Plain lexicographic order, character by character; a proper prefix
      comes before the longer string. */
  predicate Less(a: string, b: string)
    decreases |a|
  {
    if |a| == 0 then |b| > 0
    else if |b| == 0 then false
    else if a[0] == b[0] then Less(a[1..], b[1..])
    else a[0] < b[0]
  }

  lemma {:induction false} LessIrreflexive(a: string)
    ensures !Less(a, a)
    decreases |a|
  {
    if |a| > 0 {
      LessIrreflexive(a[1..]);
    }
  }

  lemma {:induction false} LessTransitive(a: string, b: string, c: string)
    requires Less(a, b) && Less(b, c)
    ensures Less(a, c)
    decreases |a|
  {
    if |a| > 0 && a[0] == b[0] && b[0] == c[0] {
      LessTransitive(a[1..], b[1..], c[1..]);
    }
  }

  lemma {:induction false} LessTrichotomy(a: string, b: string)
    ensures Less(a, b) || a == b || Less(b, a)
    decreases |a|
  {
    if |a| > 0 && |b| > 0 && a[0] == b[0] {
      LessTrichotomy(a[1..], b[1..]);
      if a[1..] == b[1..] {
        assert a == [a[0]] + a[1..] && b == [b[0]] + b[1..];
      }
    }
  }

  lemma LessAsymmetric(a: string, b: string)
    requires Less(a, b)
    ensures !Less(b, a)
  {
    if Less(b, a) {
      LessTransitive(a, b, a);
      LessIrreflexive(a);
    }
  }

  /** The characters Python's `str.split()` (no argument) treats as
      separators: `str.isspace()`. */
  predicate IsSpace(c: char) {
    || c == ' '
    || ('\t' <= c <= '\r')
    || ('\U{1C}' <= c <= '\U{1F}')
    || c == '\U{85}' || c == '\U{A0}' || c == '\U{1680}'
    || ('\U{2000}' <= c <= '\U{200A}')
    || c == '\U{2028}' || c == '\U{2029}' || c == '\U{202F}'
    || c == '\U{205F}' || c == '\U{3000}'
  }

  /** No character of `s` is whitespace. */
  predicate NoSpace(s: string)
    decreases |s|
  {
    |s| == 0 || (!IsSpace(s[0]) && NoSpace(s[1..]))
  }

  lemma {:induction false} NoSpaceAppend(a: string, b: string)
    requires NoSpace(a) && NoSpace(b)
    ensures NoSpace(a + b)
    decreases |a|
  {
    if |a| > 0 {
      assert (a + b)[0] == a[0] && (a + b)[1..] == a[1..] + b;
      NoSpaceAppend(a[1..], b);
    } else {
      assert a + b == b;
    }
  }

  /** A word produced by `split()`: non-empty, no whitespace in it. */
  predicate IsWord(w: string) {
    |w| > 0 && NoSpace(w)
  }

  /** The longest prefix of `s` that contains no whitespace. */
  function WordPrefix(s: string): (w: string)
    ensures |w| <= |s| && w == s[..|w|]
    ensures NoSpace(w)
    ensures |w| < |s| ==> IsSpace(s[|w|])
  {
    if |s| == 0 || IsSpace(s[0]) then "" else [s[0]] + WordPrefix(s[1..])
  }

  /** Python's `s.split()`: the maximal runs of non-whitespace, in order;
      leading, trailing and repeated whitespace produce no empty words. */
  function Split(s: string): (words: seq<string>)
    ensures forall i :: 0 <= i < |words| ==> IsWord(words[i])
    decreases |s|
  {
    if |s| == 0 then []
    else if IsSpace(s[0]) then Split(s[1..])
    else
      var w := WordPrefix(s);
      [w] + Split(s[|w|..])
  }

  /** Python's `sep.join(words)`. */
  function Join(sep: string, words: seq<string>): (joined: string)
  {
    if |words| == 0 then ""
    else if |words| == 1 then words[0]
    else words[0] + sep + Join(sep, words[1..])
  }

  /** Python's `s * n` for a string `s` and a count `n >= 0`. */
  function Repeat(s: string, n: nat): (r: string)
    ensures |r| == n * |s|
  {
    if n == 0 then "" else s + Repeat(s, n - 1)
  }

  lemma RepeatThree(s: string)
    ensures Repeat(s, 3) == s + s + s
  {
    assert Repeat(s, 1) == s;
  }

  lemma {:induction false} WordPrefixOfWord(w: string, rest: string)
    requires NoSpace(w)
    requires |rest| == 0 || IsSpace(rest[0])
    ensures WordPrefix(w + rest) == w
    decreases |w|
  {
    if |w| > 0 {
      assert (w + rest)[1..] == w[1..] + rest;
      WordPrefixOfWord(w[1..], rest);
    } else {
      assert w + rest == rest;
    }
  }

  /** Splitting a word followed by whitespace-led (or no) text yields that
      word first. */
  lemma {:induction false} SplitWordThen(w: string, rest: string)
    requires IsWord(w)
    requires |rest| == 0 || IsSpace(rest[0])
    ensures Split(w + rest) == [w] + Split(rest)
  {
    WordPrefixOfWord(w, rest);
    assert (w + rest)[|w|..] == rest;
  }

  /** Joining words with single spaces and then appending a space-free
      tail glues the tail onto the last word and otherwise splits back into
      the same words. */
  lemma {:induction false} SplitJoinTail(words: seq<string>, tail: string)
    requires |words| > 0
    requires forall i :: 0 <= i < |words| ==> IsWord(words[i])
    requires NoSpace(tail)
    ensures Split(Join(" ", words) + tail)
         == words[..|words| - 1] + [words[|words| - 1] + tail]
    decreases |words|
  {
    var last := words[|words| - 1];
    if |words| == 1 {
      assert Join(" ", words) + tail == last + tail;
      SplitWordTail(last, tail);
    } else {
      var w := words[0];
      var rest := Join(" ", words[1..]) + tail;
      assert Join(" ", words) + tail == w + (" " + rest);
      SplitWordSpace(w, rest);
      SplitJoinTail(words[1..], tail);
      DropLastOfTail(words);
    }
  }

  /** A word, a space, then any text: the word comes first, then the
      words of the text. */
  lemma SplitWordSpace(w: string, rest: string)
    requires IsWord(w)
    ensures Split(w + (" " + rest)) == [w] + Split(rest)
  {
    SplitWordThen(w, " " + rest);
    assert (" " + rest)[1..] == rest;
  }

  /** A word followed by a space-free tail splits into one word. */
  lemma SplitWordTail(w: string, tail: string)
    requires IsWord(w) && NoSpace(tail)
    ensures Split(w + tail) == [w + tail]
  {
    NoSpaceAppend(w, tail);
    SplitWordThen(w + tail, "");
    assert (w + tail) + "" == w + tail;
  }

  /** The round trip `' '.join(words).split() == words` for words that
      `split()` could have produced. */
  lemma {:induction false} SplitJoin(words: seq<string>)
    requires forall i :: 0 <= i < |words| ==> IsWord(words[i])
    ensures Split(Join(" ", words)) == words
  {
    if |words| > 0 {
      var n := |words|;
      var joined := Join(" ", words);
      SplitJoinTail(words, "");
      assert joined + "" == joined;
      assert words[n - 1] + "" == words[n - 1];
      assert Split(joined) == words[..n - 1] + [words[n - 1]];
      DropLastThenLast(words);
    }
  }

  lemma DropLastThenLast<T>(s: seq<T>)
    requires |s| > 0
    ensures s[..|s| - 1] + [s[|s| - 1]] == s
  {
  }

  lemma DropLastOfTail<T>(s: seq<T>)
    requires |s| > 1
    ensures s[1..][..|s[1..]| - 1] == s[1..|s| - 1]
    ensures s[..|s| - 1] == [s[0]] + s[1..][..|s[1..]| - 1]
  {
  }
}
